=== FILE: README.md ===
# auth4k core, modelled in Dafny

This project models the decision logic of auth4k, a small storage-agnostic
authentication library for http4k services. It covers three parts:

- **The authentication engine** (`Authentication`). It handles login in both
  overloads, session login, registration, logout and deletion. The engine keeps
  no state of its own. Store reads are function parameters: the user lookup by
  login key and the session lookup. Store writes are recorded, in order, as the
  `Call`s the engine makes on the caller's callbacks (`createSession`,
  `addToDatabase`, `removeSession`, `deleteFromDatabase`). Calls to the password
  hasher are recorded the same way.
- **The user lifecycle** (`Users`, `Credentials`). A `UserEntity` has three
  optional fields. Each accessor throws when its field is unset; here that
  becomes a `requires`, and `AccessFailure` names the exception. The test's
  concrete builder sets exactly one field per step. Together these give the
  Shell → Hashed → Identified stages. The `PasswordHasher` is a pair of
  caller-chosen functions, `hash` and `validate`. Nothing is assumed about them
  unless a lemma states it as a hypothesis (`ValidatesOwnHash`).
- **The session cookie and the request gate** (`Sessions`, `AuthFilters`,
  `Filters`):
  - The cookie factory issues and clears session cookies.
  - A session is read back off a request.
  - The gate sorts each request into one of four outcomes: exempt, no cookie,
    invalid cookie, authenticated.
  - There are two rejection policies: 401, or a 303 with a `location` header.
  - The older gate has no exempt routes.

`AuthFiltersScenario` replays the two gate tests end to end. It uses the
test's in-memory stores, which are insertion-ordered maps kept as sequences
of entries, and the test's callbacks. As in the test, the `createSession`
callback ignores the session login hands it. It stores the test's own
session `t` instead, and the cookie is issued for `t`. Login returns its own
generated session `g`, which stays unmapped unless it equals `t`.

Some behaviour of the code is easy to assume wrongly. The model follows the code in each case:
- `register` returns `Right(None)`. It does not return the new id. It does not
  reject a user that lacks details either.
- The default cookie lifetime is 60·60·24·7·30 = 18,144,000 seconds. That is
  thirty weeks, not about 180 days.
- The redirect policy always answers 303.

## Model

| member | source | states |
|---|---|---|
| Credentials.LoginKeyOf | src/main/kotlin/types/user/UserCredentials.kt:6 | Through the sealed interface, either variant exposes its own login key. |
| Credentials.PasswordOf | src/main/kotlin/types/user/UserCredentials.kt:5-22 | Through the sealed interface, raw credentials expose a raw password and hashed credentials a hashed one. |
| Credentials.Hash | src/main/kotlin/types/user/UserCredentials.kt:14-15 | Hashing keeps the login key. The result is always the hashed variant, holding the hasher's image of the raw password. |
| Users.AccessFailure | src/main/kotlin/types/user/User.kt:5-20 | An accessor fails exactly when its field is unset, and each field has its own exception. |
| Users.GetId | src/main/kotlin/types/user/User.kt:15 | `getId` may only be called once an id is set, and then returns that id. |
| Users.HasDetails | src/main/kotlin/types/user/User.kt:19 | `hasDetails` holds exactly when details are set. |
| Users.GetDetails | src/main/kotlin/types/user/User.kt:18 | `getDetails` may only be called when `hasDetails` holds, and then returns the details. |
| Users.GetCredentials | src/main/kotlin/types/user/User.kt:20 | `getCredentials` may only be called once credentials are hashed, and then returns them. |
| Users.HasDetailsGuardsGetDetails | src/main/kotlin/types/user/User.kt:18-19 | `hasDetails` holds exactly when `getDetails` does not throw. Otherwise it throws `DetailsNotGivenException`. |
| Users.AddId | src/test/kotlin/AuthFiltersTest.kt:32-33 | Sets the id. Details and credentials are unchanged. |
| Users.AddCredentials | src/test/kotlin/AuthFiltersTest.kt:35-36 | Sets the credentials. Id and details are unchanged. |
| Users.AddDetails | src/test/kotlin/AuthFiltersTest.kt:38-39 | Sets the details. Id and credentials are unchanged. |
| Users.BuilderStepsCommute | src/main/kotlin/types/user/User.kt:24-28 | Builder steps on different fields commute, and a second write to a field replaces the first. |
| Users.BuilderReachesEveryEntity | src/main/kotlin/types/user/User.kt:24-28 | The three builder steps alone reach every entity from the empty shell. |
| Users.HashingAdvancesShell | src/main/kotlin/types/user/User.kt:11-28 | Attaching credentials to a shell gives the Hashed stage and keeps the invariant that an id comes only after hashing. |
| Users.IdentifyingAdvancesHashed | src/main/kotlin/types/user/User.kt:11-28 | Attaching an id to a Hashed entity gives the Identified stage, keeps the invariant, and leaves the credentials untouched. |
| Users.BuilderNeverRegresses | src/main/kotlin/types/user/User.kt:24-28 | No builder step lowers an entity's stage. Adding details or credentials keeps the invariant. |
| Users.BuilderDoesNotEnforceOrder | src/main/kotlin/types/user/User.kt:24-28 | The builder does not enforce the order: an id on a shell gives an Identified entity without credentials. |
| Sessions.DefaultFactory | src/main/kotlin/Session.kt:10-13 | The default factory names its cookie `session` and uses a ttl of 18,144,000 seconds. |
| Sessions.AsSession | src/main/kotlin/Session.kt:39 | A cookie's session is the cookie's value. |
| Sessions.SessionCookie | src/main/kotlin/Session.kt:37 | The cookie is absent exactly when the request has none of that name. Otherwise it has that name and the request's value for it. |
| Sessions.Create | src/main/kotlin/Session.kt:14-26 | An issued cookie has the factory's name and the given max-age and http-only flag. It is secure, SameSite=Lax, and carries the session. |
| Sessions.CreateDefault | src/main/kotlin/Session.kt:14-17 | By default, an issued cookie lives for the factory's ttl and is http-only. |
| Sessions.Destroy | src/main/kotlin/Session.kt:28-34 | The clearing cookie has the same name, an empty value and max-age -1. It is secure, SameSite=Lax, and not http-only. |
| Sessions.RequestSession | src/main/kotlin/Session.kt:37-44 | It is absent exactly when the request has no cookie of that name. Otherwise it is the session that cookie carries. |
| Sessions.CreateRoundTrip | src/main/kotlin/Session.kt:21-39 | `create(s).asSession() == s`, for every ttl and http-only flag. |
| Sessions.IssuedCookieIsReadBack | src/main/kotlin/Session.kt:14-44 | An issued cookie sent back on a request that had no cookie of that name is read as the same session. |
| Sessions.DestroyShadowsCreate | src/main/kotlin/Session.kt:14-34 | The clearing cookie replaces the issued one (same name, secure, Lax) and reads back as the empty session. |
| Authentication.ToNoIdUser | src/main/kotlin/types/user/User.kt:35-39 | The shell gains the given details and hashed credentials. It keeps its id field. |
| Authentication.Login | src/main/kotlin/Authentication.kt:36-52 | Unknown key: `UserNotFound(key)` with no calls. Known key, bad password: `InvalidCredentials`. Success exactly when the lookup finds the user and validation passes; then it returns the factory's session, requested exactly once and never on failure. For a known key the calls are exactly one `validate` of the raw password against the stored hash, then the session request on success only. It makes no other call. |
| Authentication.HashIsAccepted | src/main/kotlin/Authentication.kt:36-52 | For a user stored with the hash of the credentials presented: the credentials authenticate, and both login overloads succeed, exactly when the hasher validates its own hash of the password. |
| Authentication.LoginCreatingSession | src/main/kotlin/Authentication.kt:54-71 | Same outcomes as `Login`. On success, `createSession(s, user id)` runs exactly once and s is returned. No failure path calls a session callback. For a known key the calls are exactly one `validate`, then `createSession(s, user id)` on success only. It makes no other call. |
| Authentication.SessionLogin | src/main/kotlin/Authentication.kt:73-77 | The result is the caller's session lookup, with no refresh and no other effect. |
| Authentication.Register | src/main/kotlin/Authentication.kt:79-94 | A resolvable login key gives `UserAlreadyExists(key)` with no call at all: no hashing, no persisting. Otherwise it hashes once and persists once an entity with the shell's id, the details and hashed credentials (same key, hashed password), then returns success. |
| Authentication.Logout | src/main/kotlin/Authentication.kt:96-98 | Calls `removeSession` exactly once with the given credentials or id, and does nothing else. |
| Authentication.LogoutUser | src/main/kotlin/Authentication.kt:97 | Same as logging out by those credentials. |
| Authentication.Delete | src/main/kotlin/Authentication.kt:100-101 | Calls `deleteFromDatabase` exactly once with the given credentials or id, and does nothing else. |
| Authentication.LoginOverloadsAgree | src/main/kotlin/Authentication.kt:36-71 | Both login overloads return the same result and make the same hasher calls. |
| Authentication.UnknownKeyTouchesNothing | src/main/kotlin/Authentication.kt:40-43 | An unknown login key reaches neither the hasher nor any session callback, in either overload. |
| Authentication.RegisterPersistsHashedStage | src/main/kotlin/Authentication.kt:89-93 | From a shell, registration persists a Hashed-stage entity with the same key and the hasher's hash; the raw password is never stored. |
| Authentication.RegisterThenLogin | src/main/kotlin/Authentication.kt:54-94 | Suppose the hasher validates its own hash, and the lookup then finds the persisted entity under a fresh id. Then login with the same credentials succeeds and creates the session for that id. |
| AuthFilters.LoginHandler | src/main/kotlin/AuthFilters.kt:31 | `onLoginResponse ?: next`: the alternate handler when one is given, else `next`. |
| AuthFilters.SessionAuthDeny | src/main/kotlin/AuthFilters.kt:14-39 | Exempt path: `next(req)` with no lookup. No cookie: 401. Refused session: 401 after one lookup. Valid session: `(onLoginResponse ?: next)(req)` with a cookie reissued for that session. |
| AuthFilters.SessionAuthRedirect | src/main/kotlin/AuthFilters.kt:41-68 | Same four outcomes, but both rejections are a 303 carrying `location: redirectRoute`. |
| AuthFilters.AtMostOneLookup | src/main/kotlin/AuthFilters.kt:22-37 | `sessionLogin` runs at most once per request: exactly when the path is not exempt and the session cookie is present, and for that cookie's session. |
| AuthFilters.InvalidCookieLikeNoCookie | src/main/kotlin/AuthFilters.kt:25-29 | Under either policy, a refused session gets exactly the response a missing cookie would get. |
| AuthFilters.ReissuesSameSession | src/main/kotlin/AuthFilters.kt:30-33 | An accepted request's last cookie is a newly issued cookie for the same session that was presented. |
| AuthFilters.PoliciesAgreeBeyondRejection | src/main/kotlin/AuthFilters.kt:14-68 | The two policies make the same lookups and give the same response. The one exception is a rejection, where one gives 401 and the other the redirect. |
| Filters.SessionAuth | src/main/kotlin/Filters.kt:12-31 | Every request is gated. No cookie or a refused session gives 401; a valid one gives the handler's response with the cookie reissued. |
| Filters.SessionAuthIsDenyWithoutExemptions | src/main/kotlin/Filters.kt:17-31 | This gate equals the exempting deny gate with no exempt routes. |
| AuthFiltersScenario.Get | src/test/kotlin/AuthFiltersTest.kt:57 | A key reads nothing exactly when no entry has that key. |
| AuthFiltersScenario.GetFindsFirst | src/test/kotlin/AuthFiltersTest.kt:57 | A read returns the value of the first entry under the key. |
| AuthFiltersScenario.Put | src/test/kotlin/AuthFiltersTest.kt:122 | `m[k] = v` on an insertion-ordered map. A new key is appended after every existing entry. An existing key keeps its place, so the map keeps its length. |
| AuthFiltersScenario.PutThenGet | src/test/kotlin/AuthFiltersTest.kt:122-128 | After `m[k] = v`, k reads v and every other key reads as before. |
| AuthFiltersScenario.RemoveThenGet | src/test/kotlin/AuthFiltersTest.kt:150 | After `remove(k)`, other keys read as before. With distinct keys, k reads nothing. |
| AuthFiltersScenario.FindByLoginKey | src/test/kotlin/AuthFiltersTest.kt:84-86 | The lookup finds nothing exactly when no stored user has the key. Otherwise it returns the first stored user, in insertion order, with that key. |
| AuthFiltersScenario.FirstSessionOf | src/test/kotlin/AuthFiltersTest.kt:150 | Nothing is found exactly when no session maps to a user with that id. Otherwise the result is the first session, in insertion order, whose user has that id. |
| AuthFiltersScenario.SessionLookup | src/test/kotlin/AuthFiltersTest.kt:57 | A session resolves exactly when the session store has it, and then to the stored user. Otherwise the result is `UserNotFound` naming the session. |
| AuthFiltersScenario.Step | src/test/kotlin/AuthFiltersTest.kt:120-151 | One callback per call. `addToDatabase(e)` for an `e` with credentials makes id 1 read `e` with id 1 attached, and every other id reads as before. A new id is appended at the end of the store. `createSession(_, id)` for a stored `id` makes the test's session `t` read that user, and every other session reads as before. A new `t` is appended at the end. `removeSession(id)` removes the first session of user `id`, and every other session reads as before. Any other call changes nothing. This includes `addToDatabase` of an entity without credentials, and `createSession` for an id with no stored user. |
| AuthFiltersScenario.Perform | src/test/kotlin/AuthFiltersTest.kt:120-151 | No calls leave the stores as they are, and one call runs its `Step`. With `PerformSplits`, this makes `Perform` the in-order run of `Step` over the calls. The user store changes only through `addToDatabase`. The session store changes only through `createSession` and `removeSession`. |
| AuthFiltersScenario.PerformSplits | src/test/kotlin/AuthFiltersTest.kt:120-151 | Running one batch of calls and then another leaves the stores as running both together does. |
| AuthFiltersScenario.AccessScenario | src/test/kotlin/AuthFiltersTest.kt:46-78 | Without a cookie, `/ping` gets 401 and the exempt `/login` gets 200. |
| AuthFiltersScenario.RegisterLoginLogoutScenario | src/test/kotlin/AuthFiltersTest.kt:80-155 | Register succeeds. Login returns its own session `g`, while the callback maps the test's session `t` to user 1; `g` stays unmapped when it differs from `t`. The exempt register response carries one cookie, issued for `t`. With the first cookie of that response, `/ping` gets 200. After logout `t` no longer resolves and `/ping` gets 401. |

## Left out

- The bcrypt hasher (`DefaultBcryptHasher`, cost 12) is left out. The hasher is a parameter, so salting and non-determinism are not modelled: within one model the `hash` function gives one image per password.
- Random session generation (`generateSession`, `UUID.asSession`) is left out. The generated or factory-made session is a parameter of login.
- Server start-up and routing (`Main.kt`, http4k `routes`) are left out. The test routes are small handler functions, and the gate is modelled as a function of the request.
- Response bodies are left out: no decision depends on them. The test's ad-hoc parsing of the request body is left out too, and the scenario passes the login key and password it would parse.
- `AuthenticationTest.kt` is left out: its tests assert nothing.
- Login keys are strings, as in `UserCredentials.kt`. The `Email`/`Username` wrappers and the generic key type are not modelled.
- User ids are unbounded integers. The 64-bit width of `LongUserId` does not matter to any decision.
- The session cookie lifetime is an unbounded integer. The Kotlin `Long` holds the default without overflow.
- A request's `Cookie` header is a map from name to value, so duplicate cookie names are not modelled.
- The `auth` argument of the gates is not modelled. The gates use it only for `sessionLogin`, which is the caller's lookup itself.
- Concurrency and atomicity of the caller's stores are left out. The library leaves them entirely to the callbacks.
- Authentication.Register: the shell and the details are separate arguments, as in `Authentication.kt`. The test calls a later, builder-based `register` that returns the new id. The scenario drives the `Authentication.kt` shape, and the id comes from the test's persist callback.
- Authentication.ToNoIdUser: `toNoIdUser` is an interface method that the caller implements (User.kt:36-39), and the library gives it no body. The model uses the test's builder: details, then credentials, on the shell's entity. The id and details that `Register` and `RegisterPersistsHashedStage` promise for the persisted entity hold for that choice. Only the hashed credentials are fixed by the library itself.
- AuthFiltersScenario.Step: `addToDatabase` of an entity without credentials is not stored. The test's callback stores it, and only the test's later lookup fails on it. The model's user store holds registered users only.
- AuthFiltersScenario.FindByLoginKey: the test's stores hold registered users only (an id and hashed credentials). The test's lookup would throw on a stored entity without credentials, and such an entity is not representable here.
- AuthFiltersScenario.RegisterLoginLogoutScenario: the test asks `create` for a non-secure cookie through an argument `create` does not declare. The scenario issues the cookie with `create`'s defaults.

=== FILE: arrow.dfy ===
/** The two wrappers of arrow.core that the library returns: `Option` for an
    absent value and `Either` for an explicit, tagged failure. */
module Arrow {

  /** `None` or `Some(value)`. */
  datatype Option<+T> = None | Some(value: T)

  /** `Left(error)` for a failure, `Right(value)` for a success. */
  datatype Either<+L, +R> = Left(left: L) | Right(right: R)
}

=== FILE: auth_filters.dfy ===
/** The session gate with exempt routes, in its two rejection policies: deny
    with 401, or redirect with 303 and a `location` header. */
module AuthFilters {
  import opened Arrow
  import opened Http
  import opened Sessions
  import opened Authentication

  /** What the gate did with one request: the response, and the sessions it
      passed to `sessionLogin`, in order. */
  datatype Gate = Gate(response: Response, lookups: seq<Session>)

  /** The four states a request can end in. */
  datatype Decision = Exempt | NoCookie | CookieInvalid(session: Session) | Authenticated(session: Session)

  /** The reference classification of a request. */
  function Classify<U>(cookieName: string, exemptRoutes: set<string>,
                       getUserBySession: Session -> Either<SessionError, U>, req: Request): Decision
  {
    if req.path in exemptRoutes then Exempt
    else if cookieName !in req.cookies then NoCookie
    else
      var s := Session(req.cookies[cookieName]);
      if getUserBySession(s).Left? then CookieInvalid(s) else Authenticated(s)
  }

  /** `onLoginResponse ?: next`. */
  function LoginHandler(onLoginResponse: Option<Handler>, next: Handler): (h: Handler)
    ensures onLoginResponse.Some? ==> h == onLoginResponse.value
    ensures onLoginResponse.None? ==> h == next
  {
    if onLoginResponse.Some? then onLoginResponse.value else next
  }

  /** The response a deny-policy gate rejects with. */
  function Denied(): Response {
    Plain(UNAUTHORIZED)
  }

  /** The response a redirect-policy gate rejects with. */
  function Redirected(redirectRoute: string): Response {
    WithHeader(Plain(SEE_OTHER), "location", redirectRoute)
  }

  /** The common shape of an accepted request's response: the handler's
      response with the session's cookie reissued on it. */
  function Reissued(cookieFactory: SessionCookieFactory, onLoginResponse: Option<Handler>,
                    next: Handler, req: Request, s: Session): Response
  {
    WithCookie(LoginHandler(onLoginResponse, next)(req), CreateDefault(cookieFactory, s))
  }

  /** `SessionAuth(auth, cookieFactory, exemptRoutes, getUserBySession,
      onLoginResponse)` applied to `next` and then to `req`: the deny policy. */
  function SessionAuthDeny<U>(cookieFactory: SessionCookieFactory, exemptRoutes: set<string>,
                              getUserBySession: Session -> Either<SessionError, U>,
                              onLoginResponse: Option<Handler>, next: Handler, req: Request): (g: Gate)
    ensures match Classify(cookieFactory.cookieName, exemptRoutes, getUserBySession, req)
            case Exempt => g == Gate(next(req), [])
            case NoCookie => g == Gate(Denied(), [])
            case CookieInvalid(s) => g == Gate(Denied(), [s])
            case Authenticated(s) => g == Gate(Reissued(cookieFactory, onLoginResponse, next, req, s), [s])
  {
    if req.path in exemptRoutes then
      Gate(next(req), [])
    else
      match RequestSession(req, cookieFactory.cookieName)
      case None => Gate(Plain(UNAUTHORIZED), [])
      case Some(session) =>
        match SessionLogin(session, getUserBySession)
        case Left(_) => Gate(Plain(UNAUTHORIZED), [session])
        case Right(_) =>
          var loginResponse := LoginHandler(onLoginResponse, next);
          Gate(WithCookie(loginResponse(req), CreateDefault(cookieFactory, session)), [session])
  }

  /** The same gate with the redirect policy. */
  function SessionAuthRedirect<U>(redirectRoute: string, cookieFactory: SessionCookieFactory,
                                  exemptRoutes: set<string>,
                                  getUserBySession: Session -> Either<SessionError, U>,
                                  onLoginResponse: Option<Handler>, next: Handler, req: Request): (g: Gate)
    ensures match Classify(cookieFactory.cookieName, exemptRoutes, getUserBySession, req)
            case Exempt => g == Gate(next(req), [])
            case NoCookie => g == Gate(Redirected(redirectRoute), [])
            case CookieInvalid(s) => g == Gate(Redirected(redirectRoute), [s])
            case Authenticated(s) => g == Gate(Reissued(cookieFactory, onLoginResponse, next, req, s), [s])
  {
    if req.path in exemptRoutes then
      Gate(next(req), [])
    else
      var redirectResponse := WithHeader(Plain(SEE_OTHER), "location", redirectRoute);
      match RequestSession(req, cookieFactory.cookieName)
      case None => Gate(redirectResponse, [])
      case Some(session) =>
        match SessionLogin(session, getUserBySession)
        case Left(_) => Gate(redirectResponse, [session])
        case Right(_) =>
          var loginResponse := LoginHandler(onLoginResponse, next);
          Gate(WithCookie(loginResponse(req), CreateDefault(cookieFactory, session)), [session])
  }

  /** `sessionLogin` runs at most once per request, and exactly when the path
      is not exempt and the request carries the session cookie. */
  lemma AtMostOneLookup<U>(cookieFactory: SessionCookieFactory, exemptRoutes: set<string>,
                           getUserBySession: Session -> Either<SessionError, U>,
                           onLoginResponse: Option<Handler>, next: Handler, req: Request)
    ensures var g := SessionAuthDeny(cookieFactory, exemptRoutes, getUserBySession, onLoginResponse, next, req);
            && |g.lookups| <= 1
            && (|g.lookups| == 1 <==> req.path !in exemptRoutes && cookieFactory.cookieName in req.cookies)
            && (|g.lookups| == 1 ==> g.lookups[0] == Session(req.cookies[cookieFactory.cookieName]))
  {
  }

  /** A session the lookup refuses is rejected exactly as a missing cookie
      is, under either policy. */
  lemma InvalidCookieLikeNoCookie<U>(redirectRoute: string, cookieFactory: SessionCookieFactory,
                                     exemptRoutes: set<string>,
                                     getUserBySession: Session -> Either<SessionError, U>,
                                     onLoginResponse: Option<Handler>, next: Handler, req: Request)
    requires req.path !in exemptRoutes
    requires cookieFactory.cookieName in req.cookies
    requires getUserBySession(Session(req.cookies[cookieFactory.cookieName])).Left?
    ensures var bare := req.(cookies := req.cookies - {cookieFactory.cookieName});
            && SessionAuthDeny(cookieFactory, exemptRoutes, getUserBySession, onLoginResponse, next, req).response
               == SessionAuthDeny(cookieFactory, exemptRoutes, getUserBySession, onLoginResponse, next, bare).response
            && SessionAuthRedirect(redirectRoute, cookieFactory, exemptRoutes, getUserBySession, onLoginResponse, next, req).response
               == SessionAuthRedirect(redirectRoute, cookieFactory, exemptRoutes, getUserBySession, onLoginResponse, next, bare).response
  {
  }

  /** An accepted request's response carries, as its last cookie, a fresh
      cookie for the very session that was presented. */
  lemma ReissuesSameSession<U>(cookieFactory: SessionCookieFactory, exemptRoutes: set<string>,
                               getUserBySession: Session -> Either<SessionError, U>,
                               onLoginResponse: Option<Handler>, next: Handler, req: Request, s: Session)
    requires Classify(cookieFactory.cookieName, exemptRoutes, getUserBySession, req) == Authenticated(s)
    ensures var r := SessionAuthDeny(cookieFactory, exemptRoutes, getUserBySession, onLoginResponse, next, req).response;
            && |r.cookies| > 0
            && AsSession(r.cookies[|r.cookies| - 1]) == Session(req.cookies[cookieFactory.cookieName])
            && r.cookies[|r.cookies| - 1] == CreateDefault(cookieFactory, s)
  {
  }

  /** The two policies agree on every request except in the form of the
      rejection: when either rejects, both do, one with 401 and the other
      with the redirect. */
  lemma PoliciesAgreeBeyondRejection<U>(redirectRoute: string, cookieFactory: SessionCookieFactory,
                                        exemptRoutes: set<string>,
                                        getUserBySession: Session -> Either<SessionError, U>,
                                        onLoginResponse: Option<Handler>, next: Handler, req: Request)
    ensures var d := SessionAuthDeny(cookieFactory, exemptRoutes, getUserBySession, onLoginResponse, next, req);
            var r := SessionAuthRedirect(redirectRoute, cookieFactory, exemptRoutes, getUserBySession, onLoginResponse, next, req);
            && d.lookups == r.lookups
            && (d.response == r.response
                || (d.response == Denied() && r.response == Redirected(redirectRoute)))
            && (d.response == Denied() && r.response == Redirected(redirectRoute) <==>
                Classify(cookieFactory.cookieName, exemptRoutes, getUserBySession, req).NoCookie? ||
                Classify(cookieFactory.cookieName, exemptRoutes, getUserBySession, req).CookieInvalid?)
  {
  }
}

=== FILE: auth_filters_test.dfy ===
/** The end-to-end scenarios of the gate's tests: the concrete user builder
    and in-memory stores of the test, driven through the engine and the gate.
    The stores are insertion-ordered maps, kept as sequences of entries. */
module AuthFiltersScenario {
  import opened Arrow
  import opened Http
  import opened Credentials
  import opened Users
  import opened Sessions
  import opened Authentication
  import opened AuthFilters

  /** The value `m[k]` of an insertion-ordered map: its first entry under `k`. */
  function Get<K(==), V>(m: seq<(K, V)>, k: K): (r: Option<V>)
    ensures r.None? <==> forall i :: 0 <= i < |m| ==> m[i].0 != k
  {
    if |m| == 0 then None
    else if m[0].0 == k then Some(m[0].1)
    else Get(m[1..], k)
  }

  predicate DistinctKeys<K(==), V>(m: seq<(K, V)>) {
    forall i, j :: 0 <= i < j < |m| ==> m[i].0 != m[j].0
  }

  /** `m[k] = v`: overwrites the entry under `k` where it stands, or appends
      one when there is none. */
  function Put<K(==), V>(m: seq<(K, V)>, k: K, v: V): (r: seq<(K, V)>)
    ensures Get(m, k).None? ==> r == m + [(k, v)]
    ensures Get(m, k).Some? ==> |r| == |m|
  {
    if |m| == 0 then [(k, v)]
    else if m[0].0 == k then [(k, v)] + m[1..]
    else [m[0]] + Put(m[1..], k, v)
  }

  /** `m.remove(k)`: drops the first entry under `k`. */
  function RemoveKey<K(==), V>(m: seq<(K, V)>, k: K): seq<(K, V)>
  {
    if |m| == 0 then []
    else if m[0].0 == k then m[1..]
    else [m[0]] + RemoveKey(m[1..], k)
  }

  /** `Get` returns the value of the first entry under the key. */
  lemma {:induction false} GetFindsFirst<K, V>(m: seq<(K, V)>, k: K)
    requires Get(m, k).Some?
    ensures exists i :: 0 <= i < |m| && m[i] == (k, Get(m, k).value) && forall j :: 0 <= j < i ==> m[j].0 != k
  {
    if m[0].0 != k {
      GetFindsFirst(m[1..], k);
      var i :| 0 <= i < |m[1..]| && m[1..][i] == (k, Get(m[1..], k).value) && forall j :: 0 <= j < i ==> m[1..][j].0 != k;
      assert m[i + 1] == (k, Get(m, k).value);
      forall j | 0 <= j < i + 1 ensures m[j].0 != k {
        if j > 0 { assert m[j] == m[1..][j - 1]; }
      }
    } else {
      assert m[0] == (k, Get(m, k).value);
    }
  }

  /** After `m[k] = v`, `k` reads `v` and every other key reads as before. */
  lemma {:induction false} PutThenGet<K, V>(m: seq<(K, V)>, k: K, v: V, k': K)
    ensures Get(Put(m, k, v), k) == Some(v)
    ensures k' != k ==> Get(Put(m, k, v), k') == Get(m, k')
  {
    if |m| > 0 && m[0].0 != k {
      PutThenGet(m[1..], k, v, k');
      assert Put(m, k, v)[1..] == Put(m[1..], k, v);
    } else if |m| > 0 {
      assert Put(m, k, v)[1..] == m[1..];
    }
  }

  /** After `m.remove(k)` every other key reads as before, and, when keys are
      distinct, `k` reads nothing. */
  lemma {:induction false} RemoveThenGet<K, V>(m: seq<(K, V)>, k: K, k': K)
    ensures k' != k ==> Get(RemoveKey(m, k), k') == Get(m, k')
    ensures DistinctKeys(m) ==> Get(RemoveKey(m, k), k).None?
  {
    if |m| > 0 {
      if m[0].0 == k {
        if DistinctKeys(m) {
          forall i | 0 <= i < |m[1..]| ensures m[1..][i].0 != k {
            assert m[1..][i] == m[i + 1];
          }
        }
      } else {
        RemoveThenGet(m[1..], k, k');
        assert RemoveKey(m, k)[1..] == RemoveKey(m[1..], k);
        if DistinctKeys(m) {
          assert DistinctKeys(m[1..]) by {
            forall i, j | 0 <= i < j < |m[1..]| ensures m[1..][i].0 != m[1..][j].0 {
              assert m[1..][i] == m[i + 1] && m[1..][j] == m[j + 1];
            }
          }
        }
      }
    }
  }

  /** `PutThenGet` for every other key at once. */
  lemma PutKeepsOthers<K, V>(m: seq<(K, V)>, k: K, v: V)
    ensures Get(Put(m, k, v), k) == Some(v)
    ensures forall k' :: k' != k ==> Get(Put(m, k, v), k') == Get(m, k')
  {
    PutThenGet(m, k, v, k);
    forall k' | k' != k ensures Get(Put(m, k, v), k') == Get(m, k') {
      PutThenGet(m, k, v, k');
    }
  }

  /** `RemoveThenGet` for every other key at once. */
  lemma RemoveKeepsOthers<K, V>(m: seq<(K, V)>, k: K)
    ensures forall k' :: k' != k ==> Get(RemoveKey(m, k), k') == Get(m, k')
  {
    forall k' | k' != k ensures Get(RemoveKey(m, k), k') == Get(m, k') {
      RemoveThenGet(m, k, k');
    }
  }

  // The test's stores and callbacks.

  type Db = seq<(UserId, RegisteredUser)>
  type Sdb = seq<(Session, UserEntity)>

  datatype World = World(db: Db, sdb: Sdb)

  const TestKey: string := "hello@world.com"
  const TestPassword: RawPassword := RawPassword("hunter2")
  const TestId: UserId := UserId(1)

  /** The test's login-key lookup: the first stored user whose credentials
      carry the key. */
  function FindByLoginKey(db: Db, key: string): (r: Option<RegisteredUser>)
    ensures r.None? <==> forall i :: 0 <= i < |db| ==> GetCredentials(db[i].1).loginKey != key
    ensures r.Some? ==> GetCredentials(r.value).loginKey == key
    ensures r.Some? ==>
              exists i :: && 0 <= i < |db| && db[i].1 == r.value
                          && forall j :: 0 <= j < i ==> GetCredentials(db[j].1).loginKey != key
  {
    if |db| == 0 then None
    else if GetCredentials(db[0].1).loginKey == key then Some(db[0].1)
    else
      var r := FindByLoginKey(db[1..], key);
      assert r.Some? ==>
               exists i :: && 0 <= i < |db| && db[i].1 == r.value
                           && forall j :: 0 <= j < i ==> GetCredentials(db[j].1).loginKey != key by {
        if r.Some? {
          var i :| && 0 <= i < |db[1..]| && db[1..][i].1 == r.value
                   && forall j :: 0 <= j < i ==> GetCredentials(db[1..][j].1).loginKey != key;
          assert db[i + 1] == db[1..][i];
          forall j | 0 <= j < i + 1 ensures GetCredentials(db[j].1).loginKey != key {
            if j > 0 { assert db[j] == db[1..][j - 1]; }
          }
        }
      }
      r
  }

  /** The engine as the test builds it, over the user store as it stands. */
  function TestAuth(h: PasswordHasher, db: Db): Auth {
    Auth(h, key => FindByLoginKey(db, key))
  }

  /** The test's session lookup: the stored user, or `UserNotFound` naming
      the session. */
  function SessionLookup(sdb: Sdb): (lookup: Session -> Either<SessionError, UserEntity>)
    ensures forall s :: lookup(s).Right? <==> Get(sdb, s).Some?
    ensures forall s :: lookup(s).Right? ==> Get(sdb, s) == Some(lookup(s).right)
    ensures forall s :: lookup(s).Left? ==> lookup(s).left == SessionUserNotFound(s.value)
  {
    s => match Get(sdb, s)
         case Some(u) => Right(u)
         case None => Left(SessionUserNotFound(s.value))
  }

  /** The first session, in insertion order, whose user has the given id. */
  function FirstSessionOf(sdb: Sdb, id: UserId): (r: Option<Session>)
    ensures r.None? <==> forall i :: 0 <= i < |sdb| ==> sdb[i].1.userId != Some(id)
    ensures r.Some? ==>
              exists i :: && 0 <= i < |sdb| && sdb[i].0 == r.value && sdb[i].1.userId == Some(id)
                          && forall j :: 0 <= j < i ==> sdb[j].1.userId != Some(id)
  {
    if |sdb| == 0 then None
    else if sdb[0].1.userId == Some(id) then Some(sdb[0].0)
    else
      var r := FirstSessionOf(sdb[1..], id);
      assert r.Some? ==>
               exists i :: && 0 <= i < |sdb| && sdb[i].0 == r.value && sdb[i].1.userId == Some(id)
                           && forall j :: 0 <= j < i ==> sdb[j].1.userId != Some(id) by {
        if r.Some? {
          var i :| && 0 <= i < |sdb[1..]| && sdb[1..][i].0 == r.value && sdb[1..][i].1.userId == Some(id)
                   && forall j :: 0 <= j < i ==> sdb[1..][j].1.userId != Some(id);
          assert sdb[i + 1] == sdb[1..][i];
          forall j | 0 <= j < i + 1 ensures sdb[j].1.userId != Some(id) {
            if j > 0 { assert sdb[j] == sdb[1..][j - 1]; }
          }
        }
      }
      r
  }

  /** One of the test's callbacks, run for one call the engine made.
      `addToDatabase(e)` stores `e` with id 1 attached under id 1;
      `createSession(_, id)` ignores the session it is handed and maps the
      test's own session `t` to the user stored under `id`;
      `removeSession(id)` drops the first session of that user. Any other
      call leaves the stores as they are. The test persists any entity,
      and its later lookup fails on one without credentials; the model's
      user store holds registered users only, so such an entity is not
      stored. A `createSession` for an id with no stored user, where the
      test's `db[userId]!!` fails, leaves the stores as they are too. */
  function Step(w: World, t: Session, c: Call): (r: World)
    ensures c.AddedToDatabase? && c.user.userCredentials.Some? ==>
              && r.sdb == w.sdb
              && Get(r.db, TestId) == Some(AddId(c.user, TestId))
              && (forall id :: id != TestId ==> Get(r.db, id) == Get(w.db, id))
              && (Get(w.db, TestId).None? ==> r.db == w.db + [(TestId, AddId(c.user, TestId))])
              && (Get(w.db, TestId).Some? ==> |r.db| == |w.db|)
    ensures c.SessionCreated? && Get(w.db, c.id).Some? ==>
              && r.db == w.db
              && Get(r.sdb, t) == Some(Get(w.db, c.id).value)
              && (forall s :: s != t ==> Get(r.sdb, s) == Get(w.sdb, s))
              && (Get(w.sdb, t).None? ==> r.sdb == w.sdb + [(t, Get(w.db, c.id).value)])
              && (Get(w.sdb, t).Some? ==> |r.sdb| == |w.sdb|)
    ensures c.SessionRemoved? && c.target.ById? && FirstSessionOf(w.sdb, c.target.id).Some? ==>
              && r.db == w.db
              && r.sdb == RemoveKey(w.sdb, FirstSessionOf(w.sdb, c.target.id).value)
              && forall s :: s != FirstSessionOf(w.sdb, c.target.id).value ==> Get(r.sdb, s) == Get(w.sdb, s)
    ensures && !(c.AddedToDatabase? && c.user.userCredentials.Some?)
            && !(c.SessionCreated? && Get(w.db, c.id).Some?)
            && !(c.SessionRemoved? && c.target.ById? && FirstSessionOf(w.sdb, c.target.id).Some?)
            ==> r == w
  {
    match c
    case AddedToDatabase(e) =>
      if e.userCredentials.Some? then
        var stored: RegisteredUser := AddId(e, TestId);
        PutKeepsOthers(w.db, TestId, stored);
        w.(db := Put(w.db, TestId, stored))
      else w
    case SessionCreated(_, id) =>
      (match Get(w.db, id)
       case Some(u) =>
         PutKeepsOthers(w.sdb, t, u);
         w.(sdb := Put(w.sdb, t, u))
       case None => w)
    case SessionRemoved(ById(id)) =>
      (match FirstSessionOf(w.sdb, id)
       case Some(s) =>
         RemoveKeepsOthers(w.sdb, s);
         w.(sdb := RemoveKey(w.sdb, s))
       case None => w)
    case _ => w
  }

  /** The test's callbacks run, in order, over the calls the engine made.
      Only the persist callback touches the user store, and only the
      session callbacks touch the session store. */
  function Perform(w: World, t: Session, calls: seq<Call>): (r: World)
    ensures (forall i :: 0 <= i < |calls| ==> !calls[i].AddedToDatabase?) ==> r.db == w.db
    ensures |calls| == 0 ==> r == w
    ensures |calls| == 1 ==> r == Step(w, t, calls[0])
    ensures (forall i :: 0 <= i < |calls| ==> !calls[i].SessionCreated? && !calls[i].SessionRemoved?) ==> r.sdb == w.sdb
    decreases |calls|
  {
    if |calls| == 0 then w
    else
      assert forall i :: 0 <= i < |calls[1..]| ==> calls[1..][i] == calls[i + 1];
      Perform(Step(w, t, calls[0]), t, calls[1..])
  }

  /** Running two batches of calls one after the other is running their
      concatenation. */
  lemma {:induction false} PerformSplits(w: World, t: Session, a: seq<Call>, b: seq<Call>)
    ensures Perform(w, t, a + b) == Perform(Perform(w, t, a), t, b)
    decreases |a|
  {
    if |a| > 0 {
      assert (a + b)[0] == a[0];
      assert (a + b)[1..] == a[1..] + b;
      PerformSplits(Step(w, t, a[0]), t, a[1..], b);
    } else {
      assert a + b == b;
    }
  }

  /** A batch of two calls is its two steps in order. */
  lemma PerformPair(w: World, t: Session, calls: seq<Call>)
    requires |calls| == 2
    ensures Perform(w, t, calls) == Step(Step(w, t, calls[0]), t, calls[1])
  {
    assert calls[1..][1..] == [];
    assert Perform(Step(w, t, calls[0]), t, calls[1..]) == Perform(Step(Step(w, t, calls[0]), t, calls[1]), t, []);
  }

  /** The routes of the access test. */
  function AccessRoutes(req: Request): Response {
    if req.verb == GET && (req.path == "/ping" || req.path == "/login") then Plain(OK) else Plain(NOT_FOUND)
  }

  /** The routes of the registration test; the registration handler's own
      response is passed in. */
  function RegistrationRoutes(registered: Response): Handler {
    (req: Request) => if req.verb == GET && req.path == "/ping" then Plain(OK)
                      else if req.verb == POST && req.path == "/register" then registered
                      else Plain(NOT_FOUND)
  }

  /** The gated application of the tests, against the session store as it stands. */
  function App(sdb: Sdb, exemptRoutes: set<string>, routes: Handler, req: Request): Response {
    SessionAuthDeny(DefaultFactory(), exemptRoutes, SessionLookup(sdb), None, routes, req).response
  }

  /** `testAccess`: a gated path without a cookie is refused; the exempt
      login page is served. */
  lemma AccessScenario()
    ensures App([], {"/login"}, AccessRoutes, Request(GET, "/ping", map[])).status == UNAUTHORIZED
    ensures App([], {"/login"}, AccessRoutes, Request(GET, "/login", map[])).status == OK
  {
    assert "/ping" != "/login" by { assert "/ping"[1] != "/login"[1]; }
  }

  function TestShell(details: UserDetails): UserShell {
    UserShell(UserEntity(None, Some(details), None), RawUserCredentials(TestKey, TestPassword))
  }

  /** `testRegisterAndLoginAndLogout`: registration stores the user; login
      with the same credentials returns its own generated session `g`, while
      the test's callback maps the test's session `t` to the user; the first
      cookie of the registration response, issued for `t`, opens a gated
      path, and after logout it is refused. The
      session login returns is mapped only when it happens to equal `t`. */
  lemma RegisterLoginLogoutScenario(h: PasswordHasher, details: UserDetails, g: Session, t: Session)
    requires ValidatesOwnHash(h, TestPassword)
    ensures
      var w0 := World([], []);
      var reg := Register(TestAuth(h, w0.db), TestShell(details), details);
      var w1 := Perform(w0, t, reg.calls);
      var login := LoginCreatingSession(TestAuth(h, w1.db), TestShell(details).credentials, g);
      var w2 := Perform(w1, t, login.calls);
      var cookie := CreateDefault(DefaultFactory(), t);
      var registered := App(w2.sdb, {"/register"}, RegistrationRoutes(WithCookie(Plain(OK), cookie)), Request(POST, "/register", map[]));
      var w3 := Perform(w2, t, Logout(ById(TestId)));
      && reg.result == Right(())
      && login.result == Right(g)
      && SessionLogin(t, SessionLookup(w2.sdb)).Right?
      && SessionLogin(t, SessionLookup(w2.sdb)).right.userId == Some(TestId)
      && (g != t ==> SessionLogin(g, SessionLookup(w2.sdb)).Left?)
      && SessionLogin(t, SessionLookup(w3.sdb)).Left?
      && registered.status == OK && |registered.cookies| == 1
      && var ping := SendCookie(Request(GET, "/ping", map[]), registered.cookies[0]);
         && App(w2.sdb, {"/register"}, RegistrationRoutes(registered), ping).status == OK
         && App(w3.sdb, {"/register"}, RegistrationRoutes(registered), ping).status == UNAUTHORIZED
  {
    var reg := Register(TestAuth(h, []), TestShell(details), details);
    var stored: RegisteredUser := AddId(reg.calls[1].user, TestId);
    // Registration stores the user under id 1.
    var w1 := Perform(World([], []), t, reg.calls);
    PerformPair(World([], []), t, reg.calls);
    assert w1.db == [(TestId, stored)];
    // Login maps the test's session to that user.
    var login := LoginCreatingSession(TestAuth(h, w1.db), TestShell(details).credentials, g);
    assert login.calls == [login.calls[0], SessionCreated(g, TestId)];
    var w2 := Perform(w1, t, login.calls);
    PerformPair(w1, t, login.calls);
    assert w2.sdb == [(t, stored)];
    // Logout drops it again.
    assert Perform(w2, t, Logout(ById(TestId))).sdb == [];
  }
}

=== FILE: authentication.dfy ===
/** The authentication engine: login, session login, registration, logout and
    deletion. It holds no state of its own; every store is reached through a
    caller-supplied callback. Reads are function parameters; writes are
    recorded, in order, as the calls the engine makes. */
module Authentication {
  import opened Arrow
  import opened Credentials
  import opened Users
  import opened Sessions

  datatype AuthenticationError = InvalidCredentials | UserNotFound(userLoginKey: string)

  datatype SessionError = SessionNotFound(session: Session) | SessionUserNotFound(userLoginKey: string)

  datatype RegistrationError = UserAlreadyExists(userLoginKey: string)

  /** A stored user as the login lookup hands it back: it has an id and hashed
      credentials. */
  type RegisteredUser = u: UserEntity | u.userId.Some? && u.userCredentials.Some?
    witness UserEntity(Some(UserId(0)), None, Some(HashedUserCredentials("", HashedPassword(""))))

  /** The engine: a hasher and the caller's read of its user store by login key. */
  datatype Auth = Auth(passwordHasher: PasswordHasher, getUserByLoginKey: string -> Option<RegisteredUser>)

  /** A registering user: an entity without an id, still holding raw credentials. */
  datatype UserShell = UserShell(entity: UserEntity, credentials: RawUserCredentials)

  /** The subject of a logout or a deletion. */
  datatype Principal = ByCredentials(credentials: RawUserCredentials) | ById(id: UserId)

  /** A call the engine makes on a collaborator. */
  datatype Call =
    | ValidateRequested(raw: RawPassword, hashed: HashedPassword)   // passwordHasher.validate
    | HashRequested(password: RawPassword)                          // passwordHasher.hash
    | SessionRequested                                              // createSession()
    | SessionCreated(session: Session, id: UserId)                  // createSession(session, id)
    | AddedToDatabase(user: UserEntity)                             // addToDatabase(user)
    | SessionRemoved(target: Principal)                             // removeSession(target)
    | UserDeleted(target: Principal)                                // deleteFromDatabase(target)

  /** A result together with the calls made while computing it. */
  datatype Effect<T> = Effect(result: T, calls: seq<Call>)

  predicate IsHasherCall(c: Call) {
    c.ValidateRequested? || c.HashRequested?
  }

  predicate IsSessionCall(c: Call) {
    c.SessionRequested? || c.SessionCreated?
  }

  /** The reference condition for a successful login: the lookup finds a user
      and the hasher validates the raw password against that user's stored
      hash. */
  predicate Authenticates(a: Auth, creds: RawUserCredentials) {
    match a.getUserByLoginKey(creds.loginKey)
    case None => false
    case Some(u) => a.passwordHasher.validate(creds.password, u.userCredentials.value.password)
  }

  /** `toNoIdUser(details, hashed)`: the shell's entity with details and hashed
      credentials attached through the builder. */
  function ToNoIdUser(shell: UserShell, details: UserDetails, hashed: HashedUserCredentials): (r: UserEntity)
    ensures r.userId == shell.entity.userId
    ensures HasDetails(r) && GetDetails(r) == details
    ensures AccessFailure(r, CredentialsField).None? && GetCredentials(r) == hashed
  {
    AddCredentials(AddDetails(shell.entity, details), hashed)
  }

  /** The first `login` overload: a session from the caller's factory
      (`created`) when the credentials check out. */
  function Login(a: Auth, creds: RawUserCredentials, created: Session): (r: Effect<Either<AuthenticationError, Session>>)
    ensures a.getUserByLoginKey(creds.loginKey).None? ==>
              r.result == Left(UserNotFound(creds.loginKey)) && r.calls == []
    ensures a.getUserByLoginKey(creds.loginKey).Some? && !Authenticates(a, creds) ==>
              r.result == Left(InvalidCredentials)
    ensures r.result.Right? <==> Authenticates(a, creds)
    ensures r.result.Right? ==> r.result.right == created && multiset(r.calls)[SessionRequested] == 1
    ensures r.result.Left? ==> forall c :: c in r.calls ==> !IsSessionCall(c)
    ensures a.getUserByLoginKey(creds.loginKey).Some? ==>
              var stored := GetCredentials(a.getUserByLoginKey(creds.loginKey).value).password;
              r.calls == [ValidateRequested(creds.password, stored)] + (if r.result.Right? then [SessionRequested] else [])
  {
    match a.getUserByLoginKey(creds.loginKey)
    case None => Effect(Left(UserNotFound(creds.loginKey)), [])
    case Some(user) =>
      var stored := GetCredentials(user).password;
      if !a.passwordHasher.validate(creds.password, stored) then
        Effect(Left(InvalidCredentials), [ValidateRequested(creds.password, stored)])
      else
        Effect(Right(created), [ValidateRequested(creds.password, stored), SessionRequested])
  }

  /** The second `login` overload: on success the freshly generated session is
      handed, with the user's id, to the caller's `createSession` exactly once. */
  function LoginCreatingSession(a: Auth, creds: RawUserCredentials, generated: Session): (r: Effect<Either<AuthenticationError, Session>>)
    ensures a.getUserByLoginKey(creds.loginKey).None? ==>
              r.result == Left(UserNotFound(creds.loginKey)) && r.calls == []
    ensures a.getUserByLoginKey(creds.loginKey).Some? && !Authenticates(a, creds) ==>
              r.result == Left(InvalidCredentials)
    ensures r.result.Right? <==> Authenticates(a, creds)
    ensures r.result.Right? ==>
              && r.result.right == generated
              && var id := GetId(a.getUserByLoginKey(creds.loginKey).value);
                 && multiset(r.calls)[SessionCreated(generated, id)] == 1
                 && forall c :: c in r.calls && IsSessionCall(c) ==> c == SessionCreated(generated, id)
    ensures r.result.Left? ==> forall c :: c in r.calls ==> !IsSessionCall(c)
    ensures a.getUserByLoginKey(creds.loginKey).Some? ==>
              var user := a.getUserByLoginKey(creds.loginKey).value;
              r.calls == [ValidateRequested(creds.password, GetCredentials(user).password)]
                         + (if r.result.Right? then [SessionCreated(generated, GetId(user))] else [])
  {
    match a.getUserByLoginKey(creds.loginKey)
    case None => Effect(Left(UserNotFound(creds.loginKey)), [])
    case Some(user) =>
      var stored := GetCredentials(user).password;
      if !a.passwordHasher.validate(creds.password, stored) then
        Effect(Left(InvalidCredentials), [ValidateRequested(creds.password, stored)])
      else
        Effect(Right(generated), [ValidateRequested(creds.password, stored), SessionCreated(generated, GetId(user))])
  }

  /** `sessionLogin`: exactly the caller's session lookup, with no refresh. */
  function SessionLogin<U>(session: Session, getUserBySession: Session -> Either<SessionError, U>): (r: Either<SessionError, U>)
    ensures r == getUserBySession(session)
  {
    getUserBySession(session)
  }

  /** `register`: refuses a login key the lookup already resolves; otherwise
      hands the shell, with its details and hashed credentials, to the
      caller's `addToDatabase` once, and reports success. */
  function Register(a: Auth, shell: UserShell, details: UserDetails): (r: Effect<Either<RegistrationError, ()>>)
    ensures r.result.Left? <==> a.getUserByLoginKey(shell.credentials.loginKey).Some?
    ensures r.result.Left? ==>
              && r.result.left == UserAlreadyExists(shell.credentials.loginKey)
              && r.calls == []
    ensures r.result.Right? ==>
              && |r.calls| == 2
              && r.calls[0] == HashRequested(shell.credentials.password)
              && r.calls[1].AddedToDatabase?
              && var e := r.calls[1].user;
                 && e.userId == shell.entity.userId
                 && e.userDetails == Some(details)
                 && e.userCredentials == Some(Hash(shell.credentials, a.passwordHasher))
  {
    if a.getUserByLoginKey(shell.credentials.loginKey).Some? then
      Effect(Left(UserAlreadyExists(shell.credentials.loginKey)), [])
    else
      var hashed := Hash(shell.credentials, a.passwordHasher);
      Effect(Right(()), [HashRequested(shell.credentials.password), AddedToDatabase(ToNoIdUser(shell, details, hashed))])
  }

  /** `logout(credentials, removeSession)` and `logout(userId, removeSession)`:
      one call of the callback with the given subject, nothing else. */
  function Logout(target: Principal): (calls: seq<Call>)
    ensures |calls| == 1 && calls[0] == SessionRemoved(target)
  {
    [SessionRemoved(target)]
  }

  /** `logoutUser(user, removeSession)`: the credentials overload of `logout`. */
  function LogoutUser(user: RawUserCredentials): (calls: seq<Call>)
    ensures calls == Logout(ByCredentials(user))
  {
    [SessionRemoved(ByCredentials(user))]
  }

  /** `delete(credentials, deleteFromDatabase)` and `delete(userId, ...)`. */
  function Delete(target: Principal): (calls: seq<Call>)
    ensures |calls| == 1 && calls[0] == UserDeleted(target)
  {
    [UserDeleted(target)]
  }

  /** The two login overloads decide alike: same outcome up to the session
      they return, and both consult the hasher the same way. */
  lemma LoginOverloadsAgree(a: Auth, creds: RawUserCredentials, s: Session)
    ensures Login(a, creds, s).result == LoginCreatingSession(a, creds, s).result
    ensures forall c :: IsHasherCall(c) ==>
              (c in Login(a, creds, s).calls <==> c in LoginCreatingSession(a, creds, s).calls)
  {
  }

  /** An unknown login key never reaches the hasher or any session callback. */
  lemma UnknownKeyTouchesNothing(a: Auth, creds: RawUserCredentials, s: Session)
    requires a.getUserByLoginKey(creds.loginKey).None?
    ensures forall c :: c in LoginCreatingSession(a, creds, s).calls ==> !IsHasherCall(c) && !IsSessionCall(c)
    ensures forall c :: c in Login(a, creds, s).calls ==> !IsHasherCall(c) && !IsSessionCall(c)
  {
  }

  /** A registered shell entity is persisted in the Hashed stage: credentials
      hashed, no id yet; the raw password is never stored. */
  lemma RegisterPersistsHashedStage(a: Auth, shell: UserShell, details: UserDetails)
    requires StageOf(shell.entity) == ShellStage
    requires a.getUserByLoginKey(shell.credentials.loginKey).None?
    ensures var e := Register(a, shell, details).calls[1].user;
            && StageOf(e) == HashedStage
            && Staged(e)
            && GetCredentials(e).loginKey == shell.credentials.loginKey
            && GetCredentials(e).password == a.passwordHasher.hash(shell.credentials.password)
  {
  }

  /** Registration followed by login: once the caller has stored the persisted
      entity under a fresh id and the lookup finds it by the same login key,
      logging in with the same raw credentials succeeds, provided the hasher
      validates its own hashes. */
  lemma RegisterThenLogin(a: Auth, shell: UserShell, details: UserDetails, id: UserId,
                          lookup: string -> Option<RegisteredUser>, s: Session)
    requires ValidatesOwnHash(a.passwordHasher, shell.credentials.password)
    requires Register(a, shell, details).result.Right?
    requires lookup(shell.credentials.loginKey) == Some(AddId(Register(a, shell, details).calls[1].user, id))
    ensures LoginCreatingSession(a.(getUserByLoginKey := lookup), shell.credentials, s).result == Right(s)
    ensures SessionCreated(s, id) in LoginCreatingSession(a.(getUserByLoginKey := lookup), shell.credentials, s).calls
  {
  }

  /** A user stored with the hash of the very credentials presented: both
      login overloads succeed exactly when the hasher validates its own hash
      of the password. */
  lemma HashIsAccepted(a: Auth, c: RawUserCredentials, s: Session)
    requires a.getUserByLoginKey(c.loginKey).Some?
    requires GetCredentials(a.getUserByLoginKey(c.loginKey).value) == Hash(c, a.passwordHasher)
    ensures Authenticates(a, c) <==> ValidatesOwnHash(a.passwordHasher, c.password)
    ensures Login(a, c, s).result.Right? <==> ValidatesOwnHash(a.passwordHasher, c.password)
    ensures LoginCreatingSession(a, c, s).result.Right? <==> ValidatesOwnHash(a.passwordHasher, c.password)
  {
  }
}

=== FILE: credentials.dfy ===
/** Passwords, credentials and the pluggable password hasher. */
module Credentials {

  /** A plaintext password as the user typed it; it is never persisted. */
  datatype RawPassword = RawPassword(value: string)

  /** The persisted form of a password. */
  datatype HashedPassword = HashedPassword(value: string)

  /** The sealed `Password` interface: either form, both exposing `value`. */
  datatype Password = Raw(raw: RawPassword) | Hashed(hashed: HashedPassword)

  /** The `PasswordHasher` capability. Both operations are chosen by the
      caller; nothing is assumed about them except where a lemma says so. */
  datatype PasswordHasher = PasswordHasher(
    hash: RawPassword -> HashedPassword,
    validate: (RawPassword, HashedPassword) -> bool)

  /** The hasher accepts `p` against its own hash of `p`: what any sound hasher
      (bcrypt among them) provides, and what registration then login relies on. */
  predicate ValidatesOwnHash(h: PasswordHasher, p: RawPassword) {
    h.validate(p, h.hash(p))
  }

  datatype RawUserCredentials = RawUserCredentials(loginKey: string, password: RawPassword)

  datatype HashedUserCredentials = HashedUserCredentials(loginKey: string, password: HashedPassword)

  /** The sealed `UserCredentials` interface over the two variants. */
  datatype UserCredentials =
    | RawCredentials(raw: RawUserCredentials)
    | HashedCredentials(hashed: HashedUserCredentials)

  /** `UserCredentials.loginKey`, read through the sealed interface. */
  function LoginKeyOf(c: UserCredentials): (k: string)
    ensures c.RawCredentials? ==> k == c.raw.loginKey
    ensures c.HashedCredentials? ==> k == c.hashed.loginKey
  {
    match c
    case RawCredentials(r) => r.loginKey
    case HashedCredentials(h) => h.loginKey
  }

  /** `UserCredentials.password`, read through the sealed interface: a raw
      pair exposes a raw password and a hashed pair a hashed one. */
  function PasswordOf(c: UserCredentials): (p: Password)
    ensures p.Raw? <==> c.RawCredentials?
    ensures p.Raw? ==> p.raw == c.raw.password
    ensures p.Hashed? ==> p.hashed == c.hashed.password
  {
    match c
    case RawCredentials(r) => Raw(r.password)
    case HashedCredentials(h) => Hashed(h.password)
  }

  /** `RawUserCredentials.hash`: the hashed variant, under the same login key,
      of the hasher's image of the raw password. */
  function Hash(c: RawUserCredentials, h: PasswordHasher): (r: HashedUserCredentials)
    ensures LoginKeyOf(HashedCredentials(r)) == LoginKeyOf(RawCredentials(c))
    ensures PasswordOf(HashedCredentials(r)) == Hashed(h.hash(c.password))
  {
    HashedUserCredentials(c.loginKey, h.hash(c.password))
  }
}

=== FILE: filters.dfy ===
/** The earlier session gate: every request is gated, and rejection is 401. */
module Filters {
  import opened Arrow
  import opened Http
  import opened Sessions
  import opened Authentication
  import AuthFilters

  /** `SessionAuth(auth, cookieFactory, getUserBySession, onLoginResponse)`
      applied to `next` and then to `req`. */
  function SessionAuth<U>(cookieFactory: SessionCookieFactory,
                          getUserBySession: Session -> Either<SessionError, U>,
                          onLoginResponse: Option<Handler>, next: Handler, req: Request): (g: AuthFilters.Gate)
    ensures cookieFactory.cookieName !in req.cookies ==> g == AuthFilters.Gate(Plain(UNAUTHORIZED), [])
    ensures cookieFactory.cookieName in req.cookies ==>
              var s := Session(req.cookies[cookieFactory.cookieName]);
              && g.lookups == [s]
              && (getUserBySession(s).Left? ==> g.response == Plain(UNAUTHORIZED))
              && (getUserBySession(s).Right? ==>
                    g.response == WithCookie(AuthFilters.LoginHandler(onLoginResponse, next)(req), CreateDefault(cookieFactory, s)))
  {
    match RequestSession(req, cookieFactory.cookieName)
    case None => AuthFilters.Gate(Plain(UNAUTHORIZED), [])
    case Some(session) =>
      match SessionLogin(session, getUserBySession)
      case Left(_) => AuthFilters.Gate(Plain(UNAUTHORIZED), [session])
      case Right(_) =>
        var loginResponse := AuthFilters.LoginHandler(onLoginResponse, next);
        AuthFilters.Gate(WithCookie(loginResponse(req), CreateDefault(cookieFactory, session)), [session])
  }

  /** This gate is the exempting deny gate with no exempt routes. */
  lemma SessionAuthIsDenyWithoutExemptions<U>(cookieFactory: SessionCookieFactory,
                                              getUserBySession: Session -> Either<SessionError, U>,
                                              onLoginResponse: Option<Handler>, next: Handler, req: Request)
    ensures SessionAuth(cookieFactory, getUserBySession, onLoginResponse, next, req)
            == AuthFilters.SessionAuthDeny(cookieFactory, {}, getUserBySession, onLoginResponse, next, req)
  {
  }
}

=== FILE: http.dfy ===
/** The slice of the HTTP toolkit (http4k) that the session gate touches:
    requests with a method, a path and cookies, responses with a status, headers and
    `Set-Cookie` cookies. The toolkit itself is not part of this model; these
    records stand for its values. */
module Http {
  import opened Arrow

  datatype Method = GET | POST

  datatype Status = Status(code: int)

  const OK := Status(200)
  const SEE_OTHER := Status(303)
  const UNAUTHORIZED := Status(401)
  const NOT_FOUND := Status(404)

  datatype SameSite = Strict | Lax | NoneSameSite

  /** A cookie with the attributes the library sets. An attribute left unset
      is `None` (max-age, same-site) or `false` (secure, http-only), as the
      toolkit's defaults are. */
  datatype Cookie = Cookie(
    name: string,
    value: string,
    maxAge: Option<int>,
    secure: bool,
    httpOnly: bool,
    sameSite: Option<SameSite>)

  /** A cookie carrying only a name and a value, as one read back off a
      request's `Cookie` header. */
  function BareCookie(name: string, value: string): Cookie {
    Cookie(name, value, None, false, false, None)
  }

  /** A request: method, path, and the `Cookie` header as name to value. */
  datatype Request = Request(verb: Method, path: string, cookies: map<string, string>)

  /** A response: status, headers in order, and the cookies it sets in order. */
  datatype Response = Response(status: Status, headers: seq<(string, string)>, cookies: seq<Cookie>)

  type Handler = Request -> Response

  /** `Response(status)`: no headers, no cookies. */
  function Plain(status: Status): Response {
    Response(status, [], [])
  }

  /** `response.header(name, value)`: appends a header. */
  function WithHeader(r: Response, name: string, value: string): Response {
    r.(headers := r.headers + [(name, value)])
  }

  /** `response.cookie(c)`: appends a `Set-Cookie`. */
  function WithCookie(r: Response, c: Cookie): Response {
    r.(cookies := r.cookies + [c])
  }

  /** `request.cookie(name)`: the cookie of that name, if the request has one. */
  function RequestCookie(req: Request, name: string): Option<Cookie> {
    if name in req.cookies then Some(BareCookie(name, req.cookies[name])) else None
  }

  /** `request.cookie(c)`: the request with `c` sent back in its `Cookie` header. */
  function SendCookie(req: Request, c: Cookie): Request {
    req.(cookies := req.cookies[c.name := c.value])
  }
}

=== FILE: sessions.dfy ===
/** Session tokens and the session cookie: issuing it, clearing it, and
    reading it back off a request. */
module Sessions {
  import opened Arrow
  import opened Http

  /** An opaque session token in its canonical text form. */
  datatype Session = Session(value: string)

  const DefaultCookieName: string := "session"

  /** Thirty weeks, in seconds: 60 * 60 * 24 * 7 * 30. */
  const DefaultTtl: int := 60 * 60 * 24 * 7 * 30

  /** `SessionCookieFactory(cookieName, ttl)`. */
  datatype SessionCookieFactory = SessionCookieFactory(cookieName: string, ttl: int)

  /** The factory built with no arguments. */
  function DefaultFactory(): (f: SessionCookieFactory)
    ensures f.cookieName == "session"
    ensures f.ttl == 18144000
  {
    SessionCookieFactory(DefaultCookieName, DefaultTtl)
  }

  /** `cookie.asSession()`: the session a cookie carries. */
  function AsSession(c: Cookie): (s: Session)
    ensures s.value == c.value
  {
    Session(c.value)
  }

  /** `create(session, ttl, httpOnly)`: a secure, same-site-Lax cookie under
      the factory's name that carries `session`. */
  function Create(f: SessionCookieFactory, session: Session, ttl: int, httpOnly: bool): (c: Cookie)
    ensures c.name == f.cookieName
    ensures AsSession(c) == session
    ensures c.maxAge == Some(ttl)
    ensures c.secure && c.sameSite == Some(Lax)
    ensures c.httpOnly == httpOnly
  {
    Cookie(f.cookieName, session.value, Some(ttl), true, httpOnly, Some(Lax))
  }

  /** `create(session)` with its defaults: the factory's ttl, http-only. */
  function CreateDefault(f: SessionCookieFactory, session: Session): (c: Cookie)
    ensures c.name == f.cookieName && AsSession(c) == session
    ensures c.maxAge == Some(f.ttl)
    ensures c.secure && c.httpOnly && c.sameSite == Some(Lax)
  {
    Create(f, session, f.ttl, true)
  }

  /** `destroy()`: a cookie that tells the client to drop the session cookie
      at once. */
  function Destroy(f: SessionCookieFactory): (c: Cookie)
    ensures c.name == f.cookieName && c.value == ""
    ensures c.maxAge == Some(-1)
    ensures c.secure && c.sameSite == Some(Lax)
    ensures !c.httpOnly
  {
    Cookie(f.cookieName, "", Some(-1), true, false, Some(Lax))
  }

  /** `request.sessionCookie(name)`. */
  function SessionCookie(req: Request, name: string): (r: Option<Cookie>)
    ensures r.None? <==> name !in req.cookies
    ensures r.Some? ==> r.value.name == name && r.value.value == req.cookies[name]
  {
    RequestCookie(req, name)
  }

  /** `request.asSession(name)`: absent exactly when the request carries no
      cookie of that name; otherwise the session that cookie carries. */
  function RequestSession(req: Request, name: string): (r: Option<Session>)
    ensures r.None? <==> name !in req.cookies
    ensures r.Some? ==> r.value == Session(req.cookies[name])
  {
    match SessionCookie(req, name)
    case None => None
    case Some(c) => Some(AsSession(c))
  }

  /** Round trip: the session an issued cookie carries is the one it was
      issued for, whatever its ttl and http-only flag. */
  lemma CreateRoundTrip(f: SessionCookieFactory, s: Session, ttl: int, httpOnly: bool)
    ensures AsSession(Create(f, s, ttl, httpOnly)) == s
  {
  }

  /** Round trip through a request: a client that sends an issued cookie back
      is read as carrying the same session. */
  lemma IssuedCookieIsReadBack(f: SessionCookieFactory, s: Session, ttl: int, httpOnly: bool, req: Request)
    requires f.cookieName !in req.cookies
    ensures RequestSession(SendCookie(req, Create(f, s, ttl, httpOnly)), f.cookieName) == Some(s)
  {
  }

  /** The clearing cookie overwrites the issued one: same name, still secure
      and same-site Lax, and it reads back as the empty session. */
  lemma DestroyShadowsCreate(f: SessionCookieFactory, s: Session)
    ensures Destroy(f).name == CreateDefault(f, s).name
    ensures Destroy(f).secure == CreateDefault(f, s).secure
    ensures Destroy(f).sameSite == CreateDefault(f, s).sameSite
    ensures AsSession(Destroy(f)) == Session("")
  {
  }
}

=== FILE: users.dfy ===
/** The user entity, its guarded accessors, the concrete builder, and the
    Shell -> Hashed -> Identified lifecycle the builder drives. */
module Users {
  import opened Arrow
  import opened Credentials

  /** An opaque identifier, assigned once the entity has been persisted. */
  datatype UserId = UserId(value: int)

  /** A caller-defined profile payload that the library never inspects. */
  datatype UserDetails = UserDetails(profile: string)

  /** What each accessor throws when its field has not been set. */
  datatype UserEntityException =
    | IdNotGivenException
    | DetailsNotGivenException
    | UserPasswordNotHashedException

  datatype Field = IdField | DetailsField | CredentialsField

  /** `UserEntity`: three optional fields filled in stage by stage. */
  datatype UserEntity = UserEntity(
    userId: Option<UserId>,
    userDetails: Option<UserDetails>,
    userCredentials: Option<HashedUserCredentials>)

  /** Whether field `f` of `u` has been set. */
  predicate Has(u: UserEntity, f: Field) {
    match f
    case IdField => u.userId != None
    case DetailsField => u.userDetails != None
    case CredentialsField => u.userCredentials != None
  }

  /** What reading field `f` of `u` throws: `None` when it is set. Each field
      has its own exception. */
  function AccessFailure(u: UserEntity, f: Field): (e: Option<UserEntityException>)
    ensures e.None? <==> Has(u, f)
    ensures e == Some(IdNotGivenException) <==> f == IdField && !Has(u, f)
    ensures e == Some(DetailsNotGivenException) <==> f == DetailsField && !Has(u, f)
    ensures e == Some(UserPasswordNotHashedException) <==> f == CredentialsField && !Has(u, f)
  {
    match f
    case IdField => if u.userId.Some? then None else Some(IdNotGivenException)
    case DetailsField => if u.userDetails.Some? then None else Some(DetailsNotGivenException)
    case CredentialsField => if u.userCredentials.Some? then None else Some(UserPasswordNotHashedException)
  }

  /** `getId()`: reading an id that was never assigned is a caller error. */
  function GetId(u: UserEntity): (id: UserId)
    requires AccessFailure(u, IdField).None?
    ensures u.userId == Some(id)
  {
    u.userId.value
  }

  /** `hasDetails()`. */
  predicate HasDetails(u: UserEntity)
    ensures HasDetails(u) <==> u.userDetails.Some?
  {
    u.userDetails != None
  }

  /** `getDetails()`: safe to call exactly when `HasDetails` holds. */
  function GetDetails(u: UserEntity): (d: UserDetails)
    requires HasDetails(u)
    ensures u.userDetails == Some(d)
  {
    u.userDetails.value
  }

  /** `getCredentials()`: only hashed credentials are ever stored. */
  function GetCredentials(u: UserEntity): (c: HashedUserCredentials)
    requires AccessFailure(u, CredentialsField).None?
    ensures u.userCredentials == Some(c)
  {
    u.userCredentials.value
  }

  /** `hasDetails()` is exactly the guard under which `getDetails()` does not
      throw. */
  lemma HasDetailsGuardsGetDetails(u: UserEntity)
    ensures HasDetails(u) <==> AccessFailure(u, DetailsField).None?
    ensures !HasDetails(u) <==> AccessFailure(u, DetailsField) == Some(DetailsNotGivenException)
  {
  }

  // The concrete builder: three transitions, each setting one field.

  function AddId(u: UserEntity, id: UserId): (r: UserEntity)
    ensures AccessFailure(r, IdField).None? && GetId(r) == id
    ensures r.userDetails == u.userDetails && r.userCredentials == u.userCredentials
  {
    UserEntity(Some(id), u.userDetails, u.userCredentials)
  }

  function AddCredentials(u: UserEntity, credentials: HashedUserCredentials): (r: UserEntity)
    ensures AccessFailure(r, CredentialsField).None? && GetCredentials(r) == credentials
    ensures r.userId == u.userId && r.userDetails == u.userDetails
  {
    UserEntity(u.userId, u.userDetails, Some(credentials))
  }

  function AddDetails(u: UserEntity, details: UserDetails): (r: UserEntity)
    ensures HasDetails(r) && GetDetails(r) == details
    ensures r.userId == u.userId && r.userCredentials == u.userCredentials
  {
    UserEntity(u.userId, Some(details), u.userCredentials)
  }

  /** Builder steps on different fields commute, and a second write to the
      same field replaces the first. */
  lemma BuilderStepsCommute(u: UserEntity, id: UserId, d: UserDetails, c: HashedUserCredentials,
                            id': UserId, d': UserDetails, c': HashedUserCredentials)
    ensures AddId(AddDetails(u, d), id) == AddDetails(AddId(u, id), d)
    ensures AddId(AddCredentials(u, c), id) == AddCredentials(AddId(u, id), c)
    ensures AddDetails(AddCredentials(u, c), d) == AddCredentials(AddDetails(u, d), c)
    ensures AddId(AddId(u, id), id') == AddId(u, id')
    ensures AddDetails(AddDetails(u, d), d') == AddDetails(u, d')
    ensures AddCredentials(AddCredentials(u, c), c') == AddCredentials(u, c')
  {
  }

  /** Every entity is reached from the empty shell by the builder alone,
      setting just the fields the entity has. */
  function Rebuild(u: UserEntity): UserEntity {
    var e0 := UserEntity(None, None, None);
    var e1 := if u.userDetails.Some? then AddDetails(e0, u.userDetails.value) else e0;
    var e2 := if u.userCredentials.Some? then AddCredentials(e1, u.userCredentials.value) else e1;
    if u.userId.Some? then AddId(e2, u.userId.value) else e2
  }

  lemma BuilderReachesEveryEntity(u: UserEntity)
    ensures Rebuild(u) == u
  {
  }

  // The lifecycle.

  datatype Stage = ShellStage | HashedStage | IdentifiedStage

  function StageOf(u: UserEntity): Stage {
    if u.userId.Some? then IdentifiedStage
    else if u.userCredentials.Some? then HashedStage
    else ShellStage
  }

  function Rank(s: Stage): nat {
    match s
    case ShellStage => 0
    case HashedStage => 1
    case IdentifiedStage => 2
  }

  /** The lifecycle invariant: an id is attached only to an entity whose
      credentials are already hashed. */
  predicate Staged(u: UserEntity) {
    u.userId.Some? ==> u.userCredentials.Some?
  }

  /** Hashing moves a shell to the Hashed stage and keeps the invariant. */
  lemma HashingAdvancesShell(u: UserEntity, c: HashedUserCredentials)
    requires StageOf(u) == ShellStage
    ensures StageOf(AddCredentials(u, c)) == HashedStage
    ensures Staged(AddCredentials(u, c))
  {
  }

  /** Assigning an id to a Hashed entity makes it Identified and keeps the
      invariant; its credentials and details are untouched. */
  lemma IdentifyingAdvancesHashed(u: UserEntity, id: UserId)
    requires StageOf(u) == HashedStage
    ensures StageOf(AddId(u, id)) == IdentifiedStage
    ensures Staged(AddId(u, id))
    ensures GetCredentials(AddId(u, id)) == GetCredentials(u)
  {
  }

  /** No builder step moves an entity back to an earlier stage, and attaching
      details or credentials never breaks the invariant. */
  lemma BuilderNeverRegresses(u: UserEntity, id: UserId, d: UserDetails, c: HashedUserCredentials)
    ensures Rank(StageOf(AddId(u, id))) >= Rank(StageOf(u))
    ensures Rank(StageOf(AddCredentials(u, c))) >= Rank(StageOf(u))
    ensures StageOf(AddDetails(u, d)) == StageOf(u)
    ensures Staged(u) ==> Staged(AddCredentials(u, c)) && Staged(AddDetails(u, d))
  {
  }

  /** The builder itself does not enforce the order: an id attached to a shell
      yields an Identified entity with no credentials. */
  lemma BuilderDoesNotEnforceOrder(u: UserEntity, id: UserId)
    requires StageOf(u) == ShellStage
    ensures StageOf(AddId(u, id)) == IdentifiedStage && !Staged(AddId(u, id))
  {
  }
}
